=== FILE: README.md ===
# django-knowledge views, modelled in Dafny

This project models the request handling of the `knowledge` application's
views (`knowledge/views.py`). That module is a Q&A knowledge base: an index
and a searchable list of questions, a thread page for one question where
responses are submitted, a page for asking a question, and a moderation
endpoint. The model covers the decisions each view makes:

- the login prologue every view starts with;
- the page-selection fallback of the index and list pages;
- the thread lookup: the visibility check, the hit counter and the canonical-URL redirect;
- the honeypot rule that silently drops anonymous spam;
- the moderation endpoint's chain of checks and where it redirects afterwards.

Each view is a pure function. Its inputs are the settings, the request, the
persistent state and the view's own arguments. It returns a `Reply`: the
outcome, which is a login redirect, not-found, a redirect, a permanent
redirect or a rendered page, together with the state the view leaves behind.
A "save and redirect" is a `Redirect` whose state has one more saved
submission (or the moderation transition applied). The ORM and the
visibility query become data the views consult:

- `Viewer.canView` answers whether the user may see an entity;
- `Viewer.perms` holds the permissions for which `has_perm` says yes;
- the maps of `Store` say which questions and responses exist;
- `QuestionRow.url` is a question's canonical address.

Files:

- `types.dfy`: settings, viewer, request, stored rows, outcomes, and the honeypot rule both forms share.
- `guard.dfy`: the login prologue.
- `paging.dfy`: Python 2's `int()` on the page parameter, the page count for five per page, the questions on a page, and page selection.
- `moderation.dfy`: the allow-list, the enumeration of moderation actions and the moderation view.
- `submission.dfy`: the ask view.
- `thread.dfy`: the thread view.
- `listing.dfy`: the index and list views. The database's default order of the questions is an input
  of both, a sequence of question ids.
- `views.dfy`: a dispatcher over the five views, for properties shared by all of them.

Behaviour of the code worth noting:

- Paginator raises `EmptyPage` for a page number below 1 as well as past the
  end, so `page=0` or `page=-2` is served the last page, not the first.
- Moderation answers with a redirect (302), not the 200 that the usage examples
  in its documentation string (knowledge/views.py:211-222) show.
- A thread view counts a hit before it checks the canonical address. A request
  at a stale address therefore counts one hit, and the redirected request counts another.
- Whether a thread view's POST saves anything is decided only after that address
  check. A response posted to a stale address is dropped by the permanent redirect.

## Model

| member | source | states |
|---|---|---|
| Guard.LoginTarget | knowledge/views.py:224-225 | the login redirect address is the login URL, then `?next=`, then the requested path, each at its fixed place |
| Guard.LoginTargetKeepsPath | knowledge/views.py:225 | two requested paths give the same login address only if they are the same path: the return target survives the redirect |
| Views.LoginGuardFirst | knowledge/views.py:43-44 | for every view, when login is required and the caller is anonymous, the answer is the login redirect carrying the path, and the state is untouched |
| Views.ListingsReadOnly | knowledge/views.py:40-139 | the index and list views never change the stored state |
| Paging.ParseInt | knowledge/views.py:68-71 | with the white space at both ends dropped, a page parameter is an integer exactly when what is left is digits only, or one sign followed by white space and then digits only; digits only read as their decimal value, and after a plus sign the value is not negative, after a minus sign not positive; an integer is written only with digits, white space and signs and holds at least one digit, so `2a`, `1.5` and the like are not integers |
| Paging.PaddingSkipped | knowledge/views.py:68-69 | runs of white space before and after a literal do not change how it reads: ` 3 ` reads as `3` does |
| Paging.DigitThenOtherRejected | knowledge/views.py:68-71 | once a digit has come, any later white space or sign inside the trimmed text makes it no integer: `1 2` and `1-2` are rejected |
| Paging.LateSignRejected | knowledge/views.py:68-71 | a sign anywhere but at the start of the trimmed text makes it no integer: `--3` and `3-` are rejected |
| Paging.MinusBlanksRead | knowledge/views.py:68-69 | any run of white space between a minus sign and the digits is skipped: `-  3` reads as -3 |
| Paging.PlusBlanksRead | knowledge/views.py:68-69 | any run of white space between a plus sign and the digits is skipped: `+\t2` reads as 2 |
| Paging.NumPages | knowledge/views.py:66 | five questions per page: the page count is the least n >= 1 with count <= 5n |
| Paging.PageItems | knowledge/views.py:66-73 | the questions of page p are the run of the listing from offset 5(p-1) up to offset 5p or the end of the listing, whichever comes first; every page but the last is full, and a page of a non-empty listing is never empty |
| Paging.ItemOnItsPage | knowledge/views.py:66-73 | every question of the listing is on exactly one page: question i falls in page p's run exactly when p is i / 5 + 1, at place i % 5 |
| Paging.SelectPage | knowledge/views.py:67-73 | the served page is always between 1 and the page count; a missing or non-integer parameter gives page 1; an integer in range is served as is; one below 1 or past the end gives the last page |
| Paging.DecimalRoundTrip | knowledge/views.py:68-69 | the integer reading of the page parameter reads the decimal spelling of any natural number back as that number |
| Paging.PlusDecimalRoundTrip | knowledge/views.py:68-69 | a leading plus sign does not change the number the page parameter reads as |
| Paging.NonNumericServesFirst | knowledge/views.py:70-71 | a page parameter without any digit is not an integer and is served page 1 |
| Paging.StrayCharServesFirst | knowledge/views.py:70-71 | a page parameter holding any character other than digits, white space and signs is not an integer and is served page 1 |
| Paging.RequestedPageServed | knowledge/views.py:119-121 | a page number within range, with or without a plus sign, is served exactly |
| Paging.PastLastServesLast | knowledge/views.py:124-125 | a page number past the last page is served the last page |
| Paging.BelowOneServesLast | knowledge/views.py:72-73 | zero and every negative page number are served the last page |
| Moderation.ModelKind | knowledge/views.py:230-235 | only `question` and `response` name a model, exactly the keys of the allow-list |
| Moderation.ParseMod | knowledge/views.py:240-241 | an action name is accepted for a model only if it names an action that applies to that model, and then the action it gives is the only one with that name; a rejected name names none |
| Moderation.AllowListAgrees | knowledge/views.py:14-25 | an action name is in ALLOWED_MODS for a model exactly when it names an action of the enumeration that applies to the model |
| Moderation.Moderate | knowledge/views.py:224-257 | login prologue first; past it, the moderation happens exactly when the request is POST, names a known model, holds that model's change permission, names an allowed action and targets an existing entity the viewer may see; every other request is the same not-found with nothing changed; a success applies the transition and lands on the question itself or the response's question, or on the index when that question has no address any more |
| Moderation.OnlyPostModerates | knowledge/views.py:227-228 | any method other than POST is not found, whatever the model, action, permissions or target |
| Moderation.UnknownModelNotFound | knowledge/views.py:230-235 | a model other than question or response is not found |
| Moderation.PermissionRequired | knowledge/views.py:237-238 | without the model's change permission the request is not found |
| Moderation.DocumentedExamples | knowledge/views.py:215-220 | question/inherit and response/notreal are not found; question/public lands on question 1's address and response/inherit on its question's address |
| Submission.Ask | knowledge/views.py:260-285 | a valid POST that passes the honeypot rule saves one question and lands on its address; one that fails it saves nothing and lands on the index; otherwise the form is rendered, with errors after a POST and blank for any other method |
| Submission.AskHoneypot | knowledge/views.py:268-275 | past the prologue, a valid POST saves the question exactly when the submitter is logged in or the phone-number field is empty, landing on the new question; otherwise nothing changes and it lands on the index |
| Submission.AskSavesAtMostOne | knowledge/views.py:268-275 | the ask view saves at most one row, and saves one exactly when the request passes the prologue and is a valid POST that the honeypot rule keeps |
| Thread.CountView | knowledge/views.py:161-162 | a view adds exactly one hit to the question and changes no other question and nothing else |
| Thread.ThreadView | knowledge/views.py:142-201 | login prologue first; a question the viewer cannot see redirects to LOGIN_REDIRECT_URL when it exists and that setting is present, and is not found otherwise, with nothing changed; a visible question gets one more hit on every request; a path other than the canonical one is a permanent redirect to it with nothing submitted; a valid POST lands on the thread, and its response is saved exactly when the honeypot rule lets it through; at the canonical address a GET renders the blank thread page and an invalid POST the page with errors, and the page is rendered nowhere else |
| Thread.HitsIndependentOfViewer | knowledge/views.py:151-162 | two viewers who may both see a question leave the same hit counts behind |
| Thread.ResponseHoneypot | knowledge/views.py:176-181 | for a visible question at its canonical address, a valid POST saves the response exactly when the submitter is logged in or the phone-number field is empty, and lands on the thread either way |
| Listing.Listed | knowledge/views.py:97-108 | a question is in the queryset exactly when the order names it, it exists, the viewer may see it and the filter keeps it; over an order without repeats, the queryset has none either |
| Listing.ListedExactly | knowledge/views.py:97-108 | over an order that names every question once, the queryset holds exactly the visible questions the filter keeps, and its length is their number |
| Listing.Index | knowledge/views.py:40-85 | the index lists the first twenty visible questions in the query's order, all visible; it renders the page chosen by the fallback rules among at most four pages of them, with that page's questions |
| Listing.IndexListsFirstTwenty | knowledge/views.py:46-47 | over an order that names every question once, the index lists visible questions only, each once, and as many as there are up to twenty |
| Listing.List | knowledge/views.py:88-139 | a non-empty category slug naming no category is not found, and nothing else is; otherwise the list holds exactly the visible questions that match, and renders the page chosen by the fallback rules with that page's questions |
| Listing.ListListsAllMatches | knowledge/views.py:96-125 | over an order that names every question once, the list holds each visible matching question once and nothing else, and its page count is that of their number |

## Left out

- Visibility (`can_view`) and the permission backend: both live outside the
  views. They are oracles, `Viewer.canView` and `Viewer.perms`. The permission
  is looked up under the exact name the view passes (`change_question`, `change_response`).
- The moderation transitions (`private`, `lock`, `delete`, ...) belong to the
  models. Each is an opaque parameter that maps the state before to the state
  after. Every allowed action is taken to be a callable method of the
  instance. The `callable` test and a missing attribute are not modelled.
- URL reversing: a question's canonical address is a field of its row. After a
  moderation, the address resolves exactly when the question's row is still in
  the resulting state. The index address is a setting.
- Moderation.Moderate: the `allowed_mods` keyword argument is fixed to its default, ALLOWED_MODS.
- Submission.Ask: the address of the newly saved question is an input. The
  saved rows are kept as a log of submissions, not as question and response rows.
- Form validation and form contents: a form is its validity and its phone-number field.
- Paging.SelectPage: Python 2's `int()` on a unicode string is modelled for
  white space below U+0080 (including U+001C to U+001F), an optional sign with
  white space allowed after it, and ASCII digits. It does not model the Unicode
  digits and the white space above U+007F (such as U+00A0 and U+2003) that
  Python also accepts.
- The database's default order of questions is an input of the index and list
  views. The index takes the first twenty visible questions in that order.
- The search filter (`icontains` on title or body) and the category filter are
  a `matches` predicate given to the list view. Paginator's internals beyond
  the page count and the page-number checks are not modelled.
- Rendering and template context: `get_my_questions`, the Author and Company
  lookups with their swallowed exceptions, `get_responses`, the popular and
  recommended listings, the categories, and `BASE_TEMPLATE`. These only fill
  the context. A rendered page records only the decisions that shaped it.
- Concurrent updates of the hit counter: the model takes one request at a time, and the database arbitrates.

=== FILE: guard.dfy ===
/**
 The login prologue every view starts with: when the site requires login and
 the caller is anonymous, the view answers with a redirect to the login page
 carrying the requested path as its 'next' parameter, and does nothing else.
 */
module Guard {
  import opened Types

  const NEXT_PARAM: string := "?next="

  predicate MustLogIn(s: Settings, req: Request)
  {
    s.loginRequired && !req.viewer.authenticated
  }

  /** The login address with the return target appended. */
  function LoginTarget(s: Settings, path: string): (url: string)
    ensures |url| == |s.loginUrl| + |NEXT_PARAM| + |path|
    ensures url[..|s.loginUrl|] == s.loginUrl
    ensures url[|s.loginUrl|..|s.loginUrl| + |NEXT_PARAM|] == NEXT_PARAM
    ensures url[|s.loginUrl| + |NEXT_PARAM|..] == path
  {
    s.loginUrl + NEXT_PARAM + path
  }

  /** The return target can be read back from the login address. */
  lemma LoginTargetKeepsPath(s: Settings, p: string, q: string)
    ensures LoginTarget(s, p) == LoginTarget(s, q) <==> p == q
  {
    if LoginTarget(s, p) == LoginTarget(s, q) {
      var n := |s.loginUrl| + |NEXT_PARAM|;
      assert p == LoginTarget(s, p)[n..];
    }
  }

  /** The reply of the prologue: the login redirect, with the state untouched. */
  function Deny(s: Settings, req: Request, store: Store): (r: Reply)
    ensures r.outcome == LoginRedirect(LoginTarget(s, req.path)) && r.store == store
  {
    Reply(LoginRedirect(LoginTarget(s, req.path)), store)
  }
}

=== FILE: listing.dfy ===
/**
 The index and list views: the questions the viewer may see, paginated five
 to a page, the page chosen by the 'page' parameter's fallback rules. The
 index shows at most the first twenty; the list may be narrowed by a search
 and by a category, and an unknown category slug is not found.

 The query's default order is an input: `order` lists the questions in the
 order the database returns them.
 */
module Listing {
  import opened Types
  import Guard
  import Paging

  const INDEX_LIMIT: nat := 20

  /** The filter of the index, which narrows nothing. */
  const AnyQuestion: QuestionId -> bool := q => true

  predicate Distinct(s: seq<QuestionId>)
  {
    forall i, j :: 0 <= i < j < |s| ==> s[i] != s[j]
  }

  /** The order names every stored question. */
  predicate Covers(store: Store, order: seq<QuestionId>)
  {
    forall q :: q in store.questions ==> q in order
  }

  /** The questions the viewer may see. */
  function VisibleQuestions(store: Store, viewer: Viewer): (qs: set<QuestionId>)
    ensures forall q :: q in qs <==> Visible(store, viewer, QuestionKind, q)
  {
    set q | q in store.questions.Keys && viewer.canView(QuestionKind, q)
  }

  function Min(a: nat, b: nat): nat
  {
    if a <= b then a else b
  }

  /**
   The questions of `order` that exist, that the viewer may see and that
   `keep` admits, in the order given: the queryset the views paginate.
   */
  function Listed(store: Store, viewer: Viewer, order: seq<QuestionId>, keep: QuestionId -> bool)
    : (qs: seq<QuestionId>)
    ensures forall q :: q in qs <==> q in order && Visible(store, viewer, QuestionKind, q) && keep(q)
    ensures |qs| <= |order|
    ensures Distinct(order) ==> Distinct(qs)
    decreases |order|
  {
    if |order| == 0 then []
    else
      var rest := Listed(store, viewer, order[1..], keep);
      if Visible(store, viewer, QuestionKind, order[0]) && keep(order[0]) then [order[0]] + rest
      else rest
  }

  /** The members of a sequence, as a set. */
  function Members(s: seq<QuestionId>): (m: set<QuestionId>)
    ensures forall q :: q in m <==> q in s
    decreases |s|
  {
    if |s| == 0 then {} else {s[0]} + Members(s[1..])
  }

  /** A sequence without repetitions has as many distinct members as elements. */
  lemma {:induction false} DistinctCount(s: seq<QuestionId>)
    requires Distinct(s)
    ensures |Members(s)| == |s|
  {
    if |s| > 0 {
      var tail := s[1..];
      assert Distinct(tail);
      DistinctCount(tail);
      assert s[0] !in tail by {
        forall k | 0 <= k < |tail| ensures tail[k] != s[0] { assert tail[k] == s[k + 1]; }
      }
    }
  }

  /** Over an order that names every question once, the listing holds exactly the questions that pass. */
  lemma ListedExactly(store: Store, viewer: Viewer, order: seq<QuestionId>, keep: QuestionId -> bool)
    requires Distinct(order) && Covers(store, order)
    ensures (set q | q in Listed(store, viewer, order, keep))
              == set q | q in VisibleQuestions(store, viewer) && keep(q)
    ensures |Listed(store, viewer, order, keep)| == |set q | q in VisibleQuestions(store, viewer) && keep(q)|
  {
    var qs := Listed(store, viewer, order, keep);
    assert (set q | q in qs) == Members(qs) == set q | q in VisibleQuestions(store, viewer) && keep(q);
    DistinctCount(qs);
  }

  /** The index view: the first twenty visible questions, paginated. */
  function Index(s: Settings, req: Request, store: Store, order: seq<QuestionId>): (r: Reply)
    ensures Guard.MustLogIn(s, req) ==> r == Guard.Deny(s, req, store)
    ensures !Guard.MustLogIn(s, req) ==>
              var visible := Listed(store, req.viewer, order, AnyQuestion);
              && r.store == store
              && r.outcome.Render? && r.outcome.page.IndexPage?
              // the listing is the first twenty visible questions in the query's order
              && |r.outcome.page.questions| == Min(|visible|, INDEX_LIMIT)
              && r.outcome.page.questions <= visible
              && (forall q :: q in r.outcome.page.questions ==> Visible(store, req.viewer, QuestionKind, q))
              && 1 <= r.outcome.page.page <= r.outcome.page.numPages
              // twenty questions at five a page never make more than four pages
              && r.outcome.page.numPages <= INDEX_LIMIT / Paging.PER_PAGE
              && r.outcome.page.numPages == Paging.NumPages(|r.outcome.page.questions|)
              && r.outcome.page.page == Paging.SelectPage(req.page, r.outcome.page.numPages)
              && r.outcome.page.articles == Paging.PageItems(r.outcome.page.questions, r.outcome.page.page)
  {
    if Guard.MustLogIn(s, req) then Guard.Deny(s, req, store)
    else
      var visible := Listed(store, req.viewer, order, AnyQuestion);
      var questions := visible[..Min(|visible|, INDEX_LIMIT)];
      var numPages := Paging.NumPages(|questions|);
      var page := Paging.SelectPage(req.page, numPages);
      Reply(Render(IndexPage(questions, Paging.PageItems(questions, page), page, numPages)), store)
  }

  /**
   When the order names every question once, the index lists visible
   questions only, each once, and as many as there are, up to twenty.
   */
  lemma IndexListsFirstTwenty(s: Settings, req: Request, store: Store, order: seq<QuestionId>)
    requires !Guard.MustLogIn(s, req)
    requires Distinct(order) && Covers(store, order)
    ensures var listed := Index(s, req, store, order).outcome.page.questions;
            && Distinct(listed)
            && (set q | q in listed) <= VisibleQuestions(store, req.viewer)
            && |listed| == Min(|VisibleQuestions(store, req.viewer)|, INDEX_LIMIT)
  {
    var visible := Listed(store, req.viewer, order, AnyQuestion);
    ListedExactly(store, req.viewer, order, AnyQuestion);
    assert (set q | q in VisibleQuestions(store, req.viewer) && AnyQuestion(q)) == VisibleQuestions(store, req.viewer);
    var listed := Index(s, req, store, order).outcome.page.questions;
    assert listed == visible[..|listed|];
    forall i, j | 0 <= i < j < |listed|
      ensures listed[i] != listed[j]
    {
      assert listed[i] == visible[i] && listed[j] == visible[j];
    }
  }

  /**
   The list view. categorySlug is the optional URL segment; matches stands for
   the search and category filter the query applies, which is not modelled.
   */
  function List(s: Settings, req: Request, store: Store, categorySlug: Option<string>,
                matches: QuestionId -> bool, order: seq<QuestionId>): (r: Reply)
    ensures Guard.MustLogIn(s, req) ==> r == Guard.Deny(s, req, store)
    ensures !Guard.MustLogIn(s, req) ==> r.store == store
    // a non-empty slug naming no category is not found; an empty one means no category
    ensures !Guard.MustLogIn(s, req) ==>
              (r.outcome == NotFound <==>
                 categorySlug.Some? && categorySlug.value != "" && categorySlug.value !in store.categories)
    ensures !Guard.MustLogIn(s, req) && r.outcome != NotFound ==>
              && r.outcome.Render? && r.outcome.page.ListPage?
              // every visible question the filter keeps is listed, and nothing else
              && (forall q :: q in r.outcome.page.questions <==>
                    q in order && Visible(store, req.viewer, QuestionKind, q) && matches(q))
              && r.outcome.page.numPages == Paging.NumPages(|r.outcome.page.questions|)
              && 1 <= r.outcome.page.page <= r.outcome.page.numPages
              && r.outcome.page.page == Paging.SelectPage(req.page, r.outcome.page.numPages)
              && r.outcome.page.articles == Paging.PageItems(r.outcome.page.questions, r.outcome.page.page)
  {
    if Guard.MustLogIn(s, req) then Guard.Deny(s, req, store)
    else if categorySlug.Some? && categorySlug.value != "" && categorySlug.value !in store.categories then
      Reply(NotFound, store)
    else
      var questions := Listed(store, req.viewer, order, matches);
      var numPages := Paging.NumPages(|questions|);
      var page := Paging.SelectPage(req.page, numPages);
      Reply(Render(ListPage(questions, Paging.PageItems(questions, page), page, numPages)), store)
  }

  /**
   When the order names every question once, the list holds exactly the
   visible questions the filter keeps, each once, and the page count is
   computed from how many there are.
   */
  lemma ListListsAllMatches(s: Settings, req: Request, store: Store, categorySlug: Option<string>,
                            matches: QuestionId -> bool, order: seq<QuestionId>)
    requires !Guard.MustLogIn(s, req)
    requires Distinct(order) && Covers(store, order)
    requires List(s, req, store, categorySlug, matches, order).outcome != NotFound
    ensures var page := List(s, req, store, categorySlug, matches, order).outcome.page;
            var wanted := set q | q in VisibleQuestions(store, req.viewer) && matches(q);
            && Distinct(page.questions)
            && (set q | q in page.questions) == wanted
            && page.numPages == Paging.NumPages(|wanted|)
  {
    ListedExactly(store, req.viewer, order, matches);
  }
}

=== FILE: moderation.dfy ===
/**
 The moderation endpoint: POST /moderate/<model>/<lookup_id>/<mod>/.

 A request passes, in this order, the login prologue, a POST-only check, the
 model name check, the model's change permission, the per-model allow-list
 of moderation actions and the visibility of the target; every failure after
 the prologue is the same not-found answer. A request that passes applies the
 named transition and is redirected to the question it concerns, or to the
 index when that question no longer has an address.
 */
module Moderation {
  import opened Types
  import Guard

  /** The moderation actions, as a closed enumeration. */
  datatype Mod = Private | Public | Delete | Lock | ClearAccepted | Internal | Inherit | Accept

  /** The name under which an action appears in URLs and in the allow-list. */
  function ModName(m: Mod): string
  {
    match m
    case Private => "private"
    case Public => "public"
    case Delete => "delete"
    case Lock => "lock"
    case ClearAccepted => "clear_accepted"
    case Internal => "internal"
    case Inherit => "inherit"
    case Accept => "accept"
  }

  /** The allow-list, per model name, as the views module declares it. */
  const ALLOWED_MODS: map<string, seq<string>> := map[
    "question" := ["private", "public", "delete", "lock", "clear_accepted"],
    "response" := ["internal", "inherit", "private", "public", "delete", "accept"]
  ]

  function ModelName(k: Kind): string
  {
    match k
    case QuestionKind => "question"
    case ResponseKind => "response"
  }

  /** The model a URL segment names, if any. */
  function ModelKind(model: string): (k: Option<Kind>)
    ensures k.Some? <==> model in ALLOWED_MODS
    ensures k.Some? ==> ModelName(k.value) == model
  {
    if model == "question" then Some(QuestionKind)
    else if model == "response" then Some(ResponseKind)
    else None
  }

  /** The permission a moderator needs for the given model. */
  function ChangePermission(k: Kind): string
  {
    match k
    case QuestionKind => "change_question"
    case ResponseKind => "change_response"
  }

  /** Which actions apply to which model, stated on the enumeration. */
  predicate Applies(k: Kind, m: Mod)
  {
    match k
    case QuestionKind => m in {Private, Public, Delete, Lock, ClearAccepted}
    case ResponseKind => m in {Internal, Inherit, Private, Public, Delete, Accept}
  }

  /** The action a URL segment names, if the allow-list admits it for the model. */
  function ParseMod(k: Kind, mod: string): (r: Option<Mod>)
    ensures r.Some? ==> ModName(r.value) == mod && Applies(k, r.value)
    ensures r.None? ==> forall m :: Applies(k, m) ==> ModName(m) != mod
    // no other action answers to the same name
    ensures r.Some? ==> forall m :: ModName(m) == mod ==> m == r.value
  {
    var m :=
      if mod == "private" then Some(Private)
      else if mod == "public" then Some(Public)
      else if mod == "delete" then Some(Delete)
      else if mod == "lock" then Some(Lock)
      else if mod == "clear_accepted" then Some(ClearAccepted)
      else if mod == "internal" then Some(Internal)
      else if mod == "inherit" then Some(Inherit)
      else if mod == "accept" then Some(Accept)
      else None;
    if m.Some? && Applies(k, m.value) then m else None
  }

  /** The string allow-list and the enumeration agree, in both directions. */
  lemma AllowListAgrees(k: Kind, mod: string)
    ensures mod in ALLOWED_MODS[ModelName(k)] <==> ParseMod(k, mod).Some?
  {
  }

  /**
   Everything a request must satisfy, once past the login prologue, for the
   moderation to happen: stated on the enumeration, not on the allow-list.
   */
  predicate Admissible(req: Request, store: Store, model: string, lookupId: nat, mod: string)
  {
    && req.httpMethod == "POST"
    && ModelKind(model).Some?
    && ChangePermission(ModelKind(model).value) in req.viewer.perms
    && ParseMod(ModelKind(model).value, mod).Some?
    && Visible(store, req.viewer, ModelKind(model).value, lookupId)
  }

  /**
   The moderation view. The transition the action performs lives with the
   models and is a parameter here: it maps the state before to the state after.
   */
  function Moderate(s: Settings, req: Request, store: Store,
                    model: string, lookupId: nat, mod: string,
                    transition: (Store, Kind, nat, Mod) -> Store): (r: Reply)
    // the login prologue comes first, before the method check
    ensures Guard.MustLogIn(s, req) ==> r == Guard.Deny(s, req, store)
    // past it, the moderation happens exactly when the request is admissible
    ensures !Guard.MustLogIn(s, req) ==> (r.outcome.Redirect? <==> Admissible(req, store, model, lookupId, mod))
    // and every failure is the same not-found answer, with nothing changed
    ensures !Guard.MustLogIn(s, req) && !Admissible(req, store, model, lookupId, mod) ==>
              r == Reply(NotFound, store)
    ensures !Guard.MustLogIn(s, req) && Admissible(req, store, model, lookupId, mod) ==>
              var k := ModelKind(model).value;
              var after := transition(store, k, lookupId, ParseMod(k, mod).value);
              && r.store == after
              // a question lands on its own address, a response on its question's
              && (k == QuestionKind && lookupId in after.questions ==>
                    r.outcome.url == after.questions[lookupId].url)
              && (k == ResponseKind && store.responses[lookupId].question in after.questions ==>
                    r.outcome.url == after.questions[store.responses[lookupId].question].url)
              // and on the index when that question is gone
              && (k == QuestionKind && lookupId !in after.questions ==> r.outcome.url == s.indexUrl)
              && (k == ResponseKind && store.responses[lookupId].question !in after.questions ==>
                    r.outcome.url == s.indexUrl)
  {
    if Guard.MustLogIn(s, req) then Guard.Deny(s, req, store)
    else if req.httpMethod != "POST" then Reply(NotFound, store)
    else match ModelKind(model)
      case None => Reply(NotFound, store)
      case Some(k) =>
        if ChangePermission(k) !in req.viewer.perms then Reply(NotFound, store)
        else if mod !in ALLOWED_MODS[model] then Reply(NotFound, store)
        else if !Visible(store, req.viewer, k, lookupId) then Reply(NotFound, store)
        else
          AllowListAgrees(k, mod);
          var after := transition(store, k, lookupId, ParseMod(k, mod).value);
          var target := if k == QuestionKind then lookupId else store.responses[lookupId].question;
          // reversing the question's address fails once its row is gone
          var landing := if target in after.questions then after.questions[target].url else s.indexUrl;
          Reply(Redirect(landing), after)
  }

  /** Any method other than POST is not found, whatever else the request holds. */
  lemma OnlyPostModerates(s: Settings, req: Request, store: Store, model: string, lookupId: nat,
                          mod: string, transition: (Store, Kind, nat, Mod) -> Store)
    requires !Guard.MustLogIn(s, req) && req.httpMethod != "POST"
    ensures Moderate(s, req, store, model, lookupId, mod, transition) == Reply(NotFound, store)
  {
  }

  /** A model other than question or response is not found. */
  lemma UnknownModelNotFound(s: Settings, req: Request, store: Store, model: string, lookupId: nat,
                             mod: string, transition: (Store, Kind, nat, Mod) -> Store)
    requires !Guard.MustLogIn(s, req) && model != "question" && model != "response"
    ensures Moderate(s, req, store, model, lookupId, mod, transition) == Reply(NotFound, store)
  {
  }

  /** Lacking the model's change permission is not found. */
  lemma PermissionRequired(s: Settings, req: Request, store: Store, k: Kind, lookupId: nat,
                           mod: string, transition: (Store, Kind, nat, Mod) -> Store)
    requires !Guard.MustLogIn(s, req) && ChangePermission(k) !in req.viewer.perms
    ensures Moderate(s, req, store, ModelName(k), lookupId, mod, transition) == Reply(NotFound, store)
  {
  }

  /**
   The examples of the endpoint's own documentation: question/inherit and
   response/notreal are not found; question/public lands on question 1 and
   response/inherit on the question response 3 answers.
   */
  lemma DocumentedExamples(s: Settings, req: Request, store: Store,
                           transition: (Store, Kind, nat, Mod) -> Store)
    requires !Guard.MustLogIn(s, req) && req.httpMethod == "POST"
    requires "change_question" in req.viewer.perms && "change_response" in req.viewer.perms
    requires Visible(store, req.viewer, QuestionKind, 1) && Visible(store, req.viewer, ResponseKind, 3)
    ensures Moderate(s, req, store, "question", 1, "inherit", transition).outcome == NotFound
    ensures Moderate(s, req, store, "response", 3, "notreal", transition).outcome == NotFound
    ensures 1 in transition(store, QuestionKind, 1, Public).questions ==>
              Moderate(s, req, store, "question", 1, "public", transition).outcome ==
              Redirect(transition(store, QuestionKind, 1, Public).questions[1].url)
    ensures var q := store.responses[3].question;
            var after := transition(store, ResponseKind, 3, Inherit);
            q in after.questions ==>
              Moderate(s, req, store, "response", 3, "inherit", transition).outcome ==
              Redirect(after.questions[q].url)
  {
  }
}

=== FILE: paging.dfy ===
/**
 Page selection for the index and list views: five questions per page, the
 'page' parameter read as an integer the way Python's int() reads a string,
 page 1 when it is not an integer, the last page when the number is out of
 range (Django's Paginator raises EmptyPage for a number below 1 as well as
 for one past the end, and the views answer both with the last page).
 */
module Paging {
  import opened Types

  const PER_PAGE: nat := 5

  /**
   The white space int() skips on a unicode string, below U+0080: tab, line
   feed, vertical tab, form feed, carriage return, the four information
   separators U+001C to U+001F, and the space.
   */
  predicate IsSpace(c: char)
  {
    c == ' ' || '\t' <= c <= '\r' || '\U{001C}' <= c <= '\U{001F}'
  }

  predicate IsDigit(c: char)
  {
    '0' <= c <= '9'
  }

  predicate AllDigits(s: string)
  {
    forall i :: 0 <= i < |s| ==> IsDigit(s[i])
  }

  /** The number of white-space characters a string starts with. */
  function LeadCount(s: string): (k: nat)
    ensures k <= |s|
    ensures forall i :: 0 <= i < k ==> IsSpace(s[i])
    ensures k < |s| ==> !IsSpace(s[k])
  {
    if |s| > 0 && IsSpace(s[0]) then 1 + LeadCount(s[1..]) else 0
  }

  /** The number of white-space characters a string ends with. */
  function TailCount(s: string): (k: nat)
    ensures k <= |s|
    ensures forall i :: |s| - k <= i < |s| ==> IsSpace(s[i])
    ensures k < |s| ==> !IsSpace(s[|s| - k - 1])
  {
    if |s| > 0 && IsSpace(s[|s| - 1]) then 1 + TailCount(s[..|s| - 1]) else 0
  }

  /** Drops leading white space. */
  function TrimStart(s: string): (r: string)
    ensures |r| <= |s| && r == s[|s| - |r|..]
    ensures forall i :: 0 <= i < |s| - |r| ==> IsSpace(s[i])
    ensures |r| > 0 ==> !IsSpace(r[0])
  {
    s[LeadCount(s)..]
  }

  /** Drops trailing white space. */
  function TrimEnd(s: string): (r: string)
    ensures |r| <= |s| && r == s[..|r|]
    ensures forall i :: |r| <= i < |s| ==> IsSpace(s[i])
    ensures |r| > 0 ==> !IsSpace(r[|r| - 1])
  {
    s[..|s| - TailCount(s)]
  }

  function DigitValue(c: char): (d: nat)
    requires IsDigit(c)
    ensures d < 10
  {
    (c as int) - ('0' as int)
  }

  function DigitChar(d: nat): (c: char)
    requires d < 10
    ensures IsDigit(c) && DigitValue(c) == d
  {
    (('0' as int) + d) as char
  }

  /** The value of a string of decimal digits, most significant first. */
  function DigitsValue(s: string): nat
    requires AllDigits(s)
  {
    if |s| == 0 then 0 else DigitsValue(s[..|s| - 1]) * 10 + DigitValue(s[|s| - 1])
  }

  /** Drops white space at both ends. */
  function Trim(s: string): (r: string)
    ensures |r| <= |s|
    ensures |r| > 0 ==> !IsSpace(r[0]) && !IsSpace(r[|r| - 1])
    ensures |s| > 0 && !IsSpace(s[0]) && !IsSpace(s[|s| - 1]) ==> r == s
  {
    NothingToTrim(s);
    TrimEnd(TrimStart(s))
  }

  lemma NothingToTrim(s: string)
    ensures |s| > 0 && !IsSpace(s[0]) ==> TrimStart(s) == s
    ensures |s| > 0 && !IsSpace(s[|s| - 1]) ==> TrimEnd(s) == s
  {
    if |s| > 0 && !IsSpace(s[0]) {
      assert LeadCount(s) == 0;
    }
    if |s| > 0 && !IsSpace(s[|s| - 1]) {
      assert TailCount(s) == 0;
    }
  }

  /**
   An integer literal without surrounding space: an optional sign, white
   space that may follow the sign, then one or more digits.
   */
  function ParseLiteral(t: string): Option<int>
  {
    if |t| > 0 && t[0] == '-' then Signed(true, ParseDigits(TrimStart(t[1..])))
    else if |t| > 0 && t[0] == '+' then Signed(false, ParseDigits(TrimStart(t[1..])))
    else Signed(false, ParseDigits(t))
  }

  /** A magnitude read, negated when a minus sign preceded it. */
  function Signed(negative: bool, magnitude: Option<nat>): Option<int>
  {
    match magnitude
    case None => None
    case Some(v) => Some(if negative then -(v as int) else v)
  }

  /** One or more decimal digits, read as a number. */
  function ParseDigits(d: string): (r: Option<nat>)
    ensures r.Some? <==> |d| > 0 && AllDigits(d)
  {
    if |d| > 0 && AllDigits(d) then Some(DigitsValue(d)) else None
  }

  /** Digits only: the shape of an unsigned literal. */
  predicate UnsignedForm(t: string)
  {
    |t| > 0 && AllDigits(t)
  }

  /** White space, then one or more digits, and nothing after the digits. */
  predicate BlanksThenDigits(u: string)
  {
    && |u| > 0
    && (forall i :: 0 <= i < |u| ==> IsSpace(u[i]) || IsDigit(u[i]))
    && (forall i, j :: 0 <= i < j < |u| && IsDigit(u[i]) ==> IsDigit(u[j]))
    && IsDigit(u[|u| - 1])
  }

  /** The shape of a signed literal: a sign, then white space, then digits. */
  predicate SignedForm(t: string)
  {
    |t| > 0 && (t[0] == '+' || t[0] == '-') && BlanksThenDigits(t[1..])
  }

  /** Python's int() on a string: optional surrounding white space around an integer literal. */
  function ParseInt(s: string): (r: Option<int>)
    ensures r.Some? ==> exists i :: 0 <= i < |s| && IsDigit(s[i])
    // anything but digits, white space and signs makes the string no integer
    ensures r.Some? ==> forall i :: 0 <= i < |s| ==> LiteralChar(s[i])
    ensures |s| > 0 && AllDigits(s) ==> r == Some(DigitsValue(s))
    // a number exactly when, white space at both ends dropped, the text has one of the two shapes
    ensures r.Some? <==> UnsignedForm(Trim(s)) || SignedForm(Trim(s))
    ensures UnsignedForm(Trim(s)) ==> r == Some(DigitsValue(Trim(s)))
    ensures SignedForm(Trim(s)) && Trim(s)[0] == '+' ==> r.Some? && r.value >= 0
    ensures SignedForm(Trim(s)) && Trim(s)[0] == '-' ==> r.Some? && r.value <= 0
  {
    DigitSurvivesTrim(s);
    CharsSurviveTrim(s);
    BareDigitsRead(s);
    LiteralForm(Trim(s));
    ParseLiteral(Trim(s))
  }

  /** On text without surrounding white space, the literal reads exactly when it has one of the two shapes. */
  lemma LiteralForm(t: string)
    requires |t| > 0 ==> !IsSpace(t[0]) && !IsSpace(t[|t| - 1])
    ensures ParseLiteral(t).Some? <==> UnsignedForm(t) || SignedForm(t)
    ensures UnsignedForm(t) ==> ParseLiteral(t) == Some(DigitsValue(t))
  {
    if |t| > 0 && (t[0] == '-' || t[0] == '+') {
      assert !IsDigit(t[0]);
      SignedLiteralForm(t);
    }
  }

  /** After a sign, the literal reads exactly when blanks then digits follow. */
  lemma SignedLiteralForm(t: string)
    requires |t| > 0 && (t[0] == '-' || t[0] == '+') && !IsSpace(t[|t| - 1])
    ensures ParseLiteral(t).Some? <==> SignedForm(t)
  {
    var x := t[1..];
    assert ParseLiteral(t).Some? <==> ParseDigits(TrimStart(x)).Some?;
    assert |x| > 0 ==> x[|x| - 1] == t[|t| - 1];
    SkippedBlanksForm(x);
  }

  /** Skipping the leading white space leaves digits only exactly when the text is blanks then digits. */
  lemma SkippedBlanksForm(x: string)
    requires |x| > 0 ==> !IsSpace(x[|x| - 1])
    ensures ParseDigits(TrimStart(x)).Some? <==> BlanksThenDigits(x)
  {
    var d := TrimStart(x);
    var k := |x| - |d|;
    assert d == x[k..];
    if |d| > 0 && AllDigits(d) {
      DigitRunForm(x, k);
    } else if BlanksThenDigits(x) {
      FormDigitRun(x, k);
      assert false;
    }
  }

  /** Blanks up to k and digits from k on make the blanks-then-digits shape. */
  lemma DigitRunForm(x: string, k: nat)
    requires k < |x|
    requires forall i :: 0 <= i < k ==> IsSpace(x[i])
    requires AllDigits(x[k..])
    ensures BlanksThenDigits(x)
  {
    assert forall i :: k <= i < |x| ==> x[i] == x[k..][i - k];
    forall i, j | 0 <= i < j < |x| && IsDigit(x[i])
      ensures IsDigit(x[j])
    {
      // a blank is no digit, so the digit lies past the blanks
      assert i >= k;
    }
  }

  /** In the blanks-then-digits shape, the first character that is no blank starts the digits. */
  lemma FormDigitRun(x: string, k: nat)
    requires BlanksThenDigits(x)
    requires k <= |x|
    requires forall i :: 0 <= i < k ==> IsSpace(x[i])
    requires k < |x| ==> !IsSpace(x[k])
    ensures k < |x| && AllDigits(x[k..])
  {
    // the text ends in a digit, which is no blank
    assert k < |x|;
    assert IsDigit(x[k]);
    forall m | 0 <= m < |x| - k
      ensures IsDigit(x[k..][m])
    {
      assert x[k..][m] == x[k + m];
    }
  }

  /** A literal that reads as a number holds at least one digit. */
  lemma LiteralHasDigit(t: string)
    ensures ParseLiteral(t).Some? ==> exists i :: 0 <= i < |t| && IsDigit(t[i])
  {
    if ParseLiteral(t).Some? {
      if |t| > 0 && (t[0] == '-' || t[0] == '+') {
        var d := TrimStart(t[1..]);
        assert ParseDigits(d).Some? && IsDigit(d[0]);
        assert d[0] == t[1 + |t[1..]| - |d|];
      } else {
        assert IsDigit(t[0]);
      }
    }
  }

  lemma DigitSurvivesTrim(s: string)
    ensures ParseLiteral(Trim(s)).Some? ==> exists i :: 0 <= i < |s| && IsDigit(s[i])
  {
    var t := Trim(s);
    LiteralHasDigit(t);
    if ParseLiteral(t).Some? {
      var j :| 0 <= j < |t| && IsDigit(t[j]);
      TrimmedInto(s, j);
    }
  }

  /** The characters an integer literal may be written with. */
  predicate LiteralChar(c: char)
  {
    IsDigit(c) || IsSpace(c) || c == '+' || c == '-'
  }

  /** A literal that reads as a number is written with digits, white space and signs only. */
  lemma LiteralChars(t: string)
    ensures ParseLiteral(t).Some? ==> forall i :: 0 <= i < |t| ==> LiteralChar(t[i])
  {
    if ParseLiteral(t).Some? {
      if |t| > 0 && (t[0] == '-' || t[0] == '+') {
        var x := t[1..];
        var d := TrimStart(x);
        assert ParseDigits(d).Some?;
        forall i | 1 <= i < |t|
          ensures LiteralChar(t[i])
        {
          assert t[i] == x[i - 1];
          if i - 1 >= |x| - |d| {
            assert x[i - 1] == d[i - 1 - (|x| - |d|)];
          }
        }
      } else {
        assert ParseDigits(t).Some?;
      }
    }
  }

  /** How many white-space characters Trim drops at the front. */
  function Lead(s: string): (k: nat)
    ensures k <= |s| - |Trim(s)|
  {
    |s| - |TrimStart(s)|
  }

  /** Character j of the trimmed string is character Lead(s) + j of the original. */
  lemma TrimmedInto(s: string, j: nat)
    requires j < |Trim(s)|
    ensures Lead(s) + j < |s| && s[Lead(s) + j] == Trim(s)[j]
  {
    var u := TrimStart(s);
    assert Trim(s) == TrimEnd(u);
    assert Trim(s)[j] == u[j];
    assert u[j] == s[Lead(s) + j];
  }

  /** A character of the original outside the trimmed run is white space. */
  lemma TrimmedFrom(s: string, i: nat)
    requires i < |s|
    requires !(Lead(s) <= i < Lead(s) + |Trim(s)|)
    ensures IsSpace(s[i])
  {
    var u := TrimStart(s);
    var t := TrimEnd(u);
    assert Trim(s) == t;
    if i >= Lead(s) {
      assert s[i] == u[i - Lead(s)];
    }
  }

  lemma CharsSurviveTrim(s: string)
    ensures ParseLiteral(Trim(s)).Some? ==> forall i :: 0 <= i < |s| ==> LiteralChar(s[i])
  {
    var t := Trim(s);
    LiteralChars(t);
    if ParseLiteral(t).Some? {
      forall i | 0 <= i < |s|
        ensures LiteralChar(s[i])
      {
        if Lead(s) <= i < Lead(s) + |t| {
          TrimmedInto(s, i - Lead(s));
        } else {
          TrimmedFrom(s, i);
        }
      }
    }
  }

  lemma BareDigitsRead(s: string)
    ensures |s| > 0 && AllDigits(s) ==> ParseLiteral(Trim(s)) == Some(DigitsValue(s))
  {
    if |s| > 0 && AllDigits(s) {
      assert IsDigit(s[0]) && IsDigit(s[|s| - 1]);
      assert Trim(s) == s;
      assert ParseDigits(s) == Some(DigitsValue(s));
    }
  }

  /** The decimal spelling of a natural number, without leading zeros. */
  function Decimal(n: nat): (r: string)
    ensures |r| >= 1 && AllDigits(r)
    ensures |r| > 1 ==> r[0] != '0'
  {
    if n < 10 then [DigitChar(n)] else Decimal(n / 10) + [DigitChar(n % 10)]
  }

  lemma {:induction false} DecimalValue(n: nat)
    ensures DigitsValue(Decimal(n)) == n
  {
    if n >= 10 {
      var r := Decimal(n);
      assert r[..|r| - 1] == Decimal(n / 10);
      DecimalValue(n / 10);
    }
  }

  /** A string that neither starts nor ends with white space reads as its literal. */
  lemma ReadUntrimmed(t: string)
    requires |t| > 0 && !IsSpace(t[0]) && !IsSpace(t[|t| - 1])
    ensures ParseInt(t) == ParseLiteral(t)
  {
    assert Trim(t) == t;
  }

  /** What follows a minus sign is read as a magnitude, then negated. */
  lemma MinusUnfold(rest: string)
    ensures ParseLiteral("-" + rest) == Signed(true, ParseDigits(TrimStart(rest)))
  {
    assert ("-" + rest)[0] == '-' && ("-" + rest)[1..] == rest;
  }

  lemma Negated(v: nat)
    ensures Signed(true, Some(v)) == Some(-(v as int))
  {
  }

  lemma PlusUnfold(rest: string)
    ensures ParseLiteral("+" + rest) == Signed(false, ParseDigits(TrimStart(rest)))
  {
    assert ("+" + rest)[0] == '+' && ("+" + rest)[1..] == rest;
  }

  /** Digits read as their value once leading space is skipped. */
  lemma MagnitudeRead(d: string)
    requires |d| >= 1 && AllDigits(d)
    ensures ParseDigits(TrimStart(d)) == Some(DigitsValue(d))
  {
    assert IsDigit(d[0]);
    assert TrimStart(d) == d;
  }

  lemma MinusLiteral(d: string, v: nat)
    requires |d| >= 1 && AllDigits(d) && v == DigitsValue(d)
    ensures ParseLiteral("-" + d) == Some(-(v as int))
  {
    MinusUnfold(d);
    MagnitudeRead(d);
    Negated(v);
  }

  lemma PlusLiteral(d: string)
    requires |d| >= 1 && AllDigits(d)
    ensures ParseLiteral("+" + d) == Some(DigitsValue(d))
  {
    PlusUnfold(d);
    MagnitudeRead(d);
  }

  /** A string of digits reads as its value. */
  lemma DigitsRead(d: string)
    requires |d| >= 1 && AllDigits(d)
    ensures ParseInt(d) == Some(DigitsValue(d))
  {
    assert IsDigit(d[0]) && IsDigit(d[|d| - 1]);
    ReadUntrimmed(d);
  }

  /** A minus sign followed by digits reads as the negated value. */
  lemma MinusDigitsRead(d: string, v: nat)
    requires |d| >= 1 && AllDigits(d) && v == DigitsValue(d)
    ensures ParseInt("-" + d) == Some(-(v as int))
  {
    var t := "-" + d;
    assert IsDigit(d[|d| - 1]) && t[|t| - 1] == d[|d| - 1];
    ReadUntrimmed(t);
    MinusLiteral(d, v);
  }

  /** A plus sign followed by digits reads as the value. */
  lemma PlusDigitsRead(d: string)
    requires |d| >= 1 && AllDigits(d)
    ensures ParseInt("+" + d) == Some(DigitsValue(d))
  {
    var t := "+" + d;
    assert IsDigit(d[|d| - 1]) && t[|t| - 1] == d[|d| - 1];
    ReadUntrimmed(t);
    PlusLiteral(d);
  }

  /** A run of white space in front of the digits is skipped. */
  lemma BlanksSkipped(b: string, d: string)
    requires forall i :: 0 <= i < |b| ==> IsSpace(b[i])
    requires |d| >= 1 && !IsSpace(d[0])
    ensures TrimStart(b + d) == d
  {
    var x := b + d;
    var r := TrimStart(x);
    var k := |x| - |r|;
    // the trimmed prefix is all space, so it stops at or before the first digit
    assert x[|b|] == d[0] && !IsSpace(x[|b|]);
    assert k <= |b|;
    // and the remainder starts with no space, so it does not stop inside the blanks
    assert |r| > 0 && r[0] == x[k];
    assert forall j :: 0 <= j < |b| ==> x[j] == b[j];
    assert k == |b|;
    assert r == x[|b|..] == d;
  }

  /** A run of white space after the text is dropped. */
  lemma TrailingBlanksDropped(d: string, b: string)
    requires forall i :: 0 <= i < |b| ==> IsSpace(b[i])
    requires |d| >= 1 && !IsSpace(d[|d| - 1])
    ensures TrimEnd(d + b) == d
  {
    var x := d + b;
    var r := TrimEnd(x);
    // the dropped suffix is all space, so it starts after the last character of d
    assert x[|d| - 1] == d[|d| - 1] && !IsSpace(x[|d| - 1]);
    assert |r| >= |d|;
    // and the remainder ends in no space, so it does not end inside the blanks
    assert |r| > 0 && r[|r| - 1] == x[|r| - 1];
    assert forall j :: |d| <= j < |x| ==> x[j] == b[j - |d|];
    assert |r| == |d|;
    assert r == x[..|d|] == d;
  }

  /**
   White space around a literal changes nothing: int(" 3 ") is int("3"),
   and likewise for any runs of white space on either side.
   */
  lemma PaddingSkipped(b1: string, t: string, b2: string)
    requires forall i :: 0 <= i < |b1| ==> IsSpace(b1[i])
    requires forall i :: 0 <= i < |b2| ==> IsSpace(b2[i])
    requires |t| > 0 && !IsSpace(t[0]) && !IsSpace(t[|t| - 1])
    ensures ParseInt(b1 + t + b2) == ParseInt(t)
  {
    var tb := t + b2;
    assert b1 + t + b2 == b1 + tb;
    assert tb[0] == t[0];
    BlanksSkipped(b1, tb);
    TrailingBlanksDropped(t, b2);
    assert Trim(b1 + t + b2) == t;
    ReadUntrimmed(t);
  }

  /** Once a digit has come, anything but digits makes the string no integer: "1 2" and "1-2" are rejected. */
  lemma DigitThenOtherRejected(s: string, i: nat, j: nat)
    requires i < j < |Trim(s)|
    requires IsDigit(Trim(s)[i]) && !IsDigit(Trim(s)[j])
    ensures ParseInt(s).None?
  {
    var t := Trim(s);
    if SignedForm(t) {
      SignedDigitsLast(t, i, j);
    }
  }

  /** In a signed literal, every character after the first digit is a digit. */
  lemma SignedDigitsLast(t: string, i: nat, j: nat)
    requires SignedForm(t)
    requires i < j < |t| && IsDigit(t[i])
    ensures IsDigit(t[j])
  {
    assert i >= 1;
    assert t[1..][i - 1] == t[i] && t[1..][j - 1] == t[j];
  }

  /** In a signed literal, every character after the sign is white space or a digit. */
  lemma SignedTail(t: string, j: nat)
    requires SignedForm(t)
    requires 1 <= j < |t|
    ensures IsSpace(t[j]) || IsDigit(t[j])
  {
    assert t[1..][j - 1] == t[j];
  }

  /** A sign anywhere but first makes the string no integer: "--3" and "3-" are rejected. */
  lemma LateSignRejected(s: string, j: nat)
    requires 1 <= j < |Trim(s)|
    requires Trim(s)[j] == '+' || Trim(s)[j] == '-'
    ensures ParseInt(s).None?
  {
    var t := Trim(s);
    if SignedForm(t) {
      SignedTail(t, j);
    }
  }

  lemma MinusBlanksLiteral(b: string, d: string, v: nat)
    requires forall i :: 0 <= i < |b| ==> IsSpace(b[i])
    requires |d| >= 1 && AllDigits(d) && v == DigitsValue(d)
    ensures ParseLiteral("-" + b + d) == Some(-(v as int))
  {
    var x := b + d;
    assert TrimStart(x) == d by {
      assert IsDigit(d[0]) && !IsSpace(d[0]);
      BlanksSkipped(b, d);
    }
    assert ParseDigits(d) == Some(v);
    assert "-" + b + d == "-" + x;
    MinusMagnitude(x, d, v);
  }

  /** A minus sign before text whose blanks, once skipped, leave a magnitude negates it. */
  lemma MinusMagnitude(x: string, d: string, v: nat)
    requires TrimStart(x) == d && ParseDigits(d) == Some(v)
    ensures ParseLiteral("-" + x) == Some(-(v as int))
  {
    MinusUnfold(x);
    Negated(v);
  }

  lemma PlusBlanksLiteral(b: string, d: string, v: nat)
    requires forall i :: 0 <= i < |b| ==> IsSpace(b[i])
    requires |d| >= 1 && AllDigits(d) && v == DigitsValue(d)
    ensures ParseLiteral("+" + b + d) == Some(v)
  {
    var x := b + d;
    assert TrimStart(x) == d by {
      assert IsDigit(d[0]) && !IsSpace(d[0]);
      BlanksSkipped(b, d);
    }
    assert ParseDigits(d) == Some(v);
    assert "+" + b + d == "+" + x;
    PlusMagnitude(x, d, v);
  }

  /** A plus sign before text whose blanks, once skipped, leave a magnitude keeps it. */
  lemma PlusMagnitude(x: string, d: string, v: nat)
    requires TrimStart(x) == d && ParseDigits(d) == Some(v)
    ensures ParseLiteral("+" + x) == Some(v)
  {
    PlusUnfold(x);
  }

  /** Python 2's int() lets white space follow a minus sign: "-  3" reads as -3. */
  lemma MinusBlanksRead(b: string, d: string, v: nat)
    requires forall i :: 0 <= i < |b| ==> IsSpace(b[i])
    requires |d| >= 1 && AllDigits(d) && v == DigitsValue(d)
    ensures ParseInt("-" + b + d) == Some(-(v as int))
  {
    var t := "-" + b + d;
    assert IsDigit(d[|d| - 1]) && t[|t| - 1] == d[|d| - 1] && t[0] == '-';
    ReadUntrimmed(t);
    MinusBlanksLiteral(b, d, v);
  }

  /** Python 2's int() lets white space follow a plus sign: "+\t2" reads as 2. */
  lemma PlusBlanksRead(b: string, d: string, v: nat)
    requires forall i :: 0 <= i < |b| ==> IsSpace(b[i])
    requires |d| >= 1 && AllDigits(d) && v == DigitsValue(d)
    ensures ParseInt("+" + b + d) == Some(v)
  {
    var t := "+" + b + d;
    assert IsDigit(d[|d| - 1]) && t[|t| - 1] == d[|d| - 1] && t[0] == '+';
    ReadUntrimmed(t);
    PlusBlanksLiteral(b, d, v);
  }

  /** Reading back what Decimal writes gives the number again. */
  lemma DecimalRoundTrip(n: nat)
    ensures ParseInt(Decimal(n)) == Some(n)
  {
    DecimalValue(n);
    DigitsRead(Decimal(n));
  }

  /** A leading plus sign does not change the number read. */
  lemma PlusDecimalRoundTrip(n: nat)
    ensures ParseInt("+" + Decimal(n)) == Some(n)
  {
    DecimalValue(n);
    PlusDigitsRead(Decimal(n));
  }

  /** Django's page count with empty first page allowed: ceil(count / 5), and at least 1. */
  function NumPages(count: nat): (n: nat)
    ensures n >= 1
    ensures (n - 1) * PER_PAGE < count <= n * PER_PAGE || (count == 0 && n == 1)
  {
    if count == 0 then 1 else (count + PER_PAGE - 1) / PER_PAGE
  }

  /** The items on page p: the p-th run of PER_PAGE items, the last run possibly shorter. */
  function PageItems<T>(items: seq<T>, p: nat): (page: seq<T>)
    requires 1 <= p <= NumPages(|items|)
    ensures 0 < |page| <= PER_PAGE || (|items| == 0 && page == [])
    ensures p < NumPages(|items|) ==> |page| == PER_PAGE
    ensures (p - 1) * PER_PAGE + |page| <= |items|
    // the page ends after its fifth item, or at the end of the list
    ensures (p - 1) * PER_PAGE + |page| == if p * PER_PAGE <= |items| then p * PER_PAGE else |items|
    ensures page == items[(p - 1) * PER_PAGE..(p - 1) * PER_PAGE + |page|]
  {
    var lo := (p - 1) * PER_PAGE;
    items[lo..if lo + PER_PAGE <= |items| then lo + PER_PAGE else |items|]
  }

  /** Every item is on exactly one page: item i is at place i % 5 of page i / 5 + 1, and on no other page. */
  lemma ItemOnItsPage<T>(items: seq<T>, i: nat, p: nat)
    requires i < |items|
    requires 1 <= p <= NumPages(|items|)
    ensures i / PER_PAGE + 1 <= NumPages(|items|)
    // item i falls in page p's run of the list exactly when p is its page
    ensures (p - 1) * PER_PAGE <= i < (p - 1) * PER_PAGE + |PageItems(items, p)| <==> p == i / PER_PAGE + 1
    ensures p == i / PER_PAGE + 1 ==> PageItems(items, p)[i % PER_PAGE] == items[i]
  {
  }

  /** The page served for a 'page' parameter when there are numPages pages. */
  function SelectPage(param: Option<string>, numPages: nat): (p: nat)
    requires numPages >= 1
    ensures 1 <= p <= numPages
    ensures param.None? || ParseInt(param.value).None? ==> p == 1
    ensures param.Some? && ParseInt(param.value).Some? ==>
              var k := ParseInt(param.value).value;
              (1 <= k <= numPages ==> p == k) && (k < 1 || numPages < k ==> p == numPages)
  {
    match param
    case None => 1  // int(None) raises TypeError, reported as PageNotAnInteger
    case Some(text) =>
      match ParseInt(text)
      case None => 1
      case Some(k) => if 1 <= k <= numPages then k else numPages
  }

  /** A page number in range, written bare or with a plus sign, is served as asked. */
  lemma RequestedPageServed(k: nat, numPages: nat)
    requires 1 <= k <= numPages
    ensures SelectPage(Some(Decimal(k)), numPages) == k
    ensures SelectPage(Some("+" + Decimal(k)), numPages) == k
  {
    DecimalRoundTrip(k);
    PlusDecimalRoundTrip(k);
  }

  /** A parameter without a single digit is not an integer, and is served page 1. */
  lemma NonNumericServesFirst(text: string, numPages: nat)
    requires forall i :: 0 <= i < |text| ==> !IsDigit(text[i])
    requires numPages >= 1
    ensures ParseInt(text).None?
    ensures SelectPage(Some(text), numPages) == 1
  {
  }

  /** A parameter with any character other than digits, white space and signs is served page 1. */
  lemma StrayCharServesFirst(text: string, i: nat, numPages: nat)
    requires i < |text| && !LiteralChar(text[i])
    requires numPages >= 1
    ensures ParseInt(text).None?
    ensures SelectPage(Some(text), numPages) == 1
  {
  }

  /** A number past the last page is served the last page. */
  lemma PastLastServesLast(k: nat, numPages: nat)
    requires 1 <= numPages < k
    ensures SelectPage(Some(Decimal(k)), numPages) == numPages
  {
    DecimalRoundTrip(k);
  }

  /** Zero and every negative number are served the last page too, not the first. */
  lemma BelowOneServesLast(d: string, numPages: nat)
    requires |d| >= 1 && AllDigits(d)
    requires numPages >= 1
    ensures SelectPage(Some("-" + d), numPages) == numPages
    ensures SelectPage(Some("0"), numPages) == numPages
  {
    var v := DigitsValue(d);
    MinusDigitsRead(d, v);
    BelowOneRead("-" + d, numPages);
    DigitsRead("0");
    BelowOneRead("0", numPages);
  }

  lemma BelowOneRead(text: string, numPages: nat)
    requires ParseInt(text).Some? && ParseInt(text).value < 1
    requires numPages >= 1
    ensures SelectPage(Some(text), numPages) == numPages
  {
  }
}

=== FILE: submission.dfy ===
/**
 The new-question view, /ask/: a valid form passes the honeypot rule and is
 saved, or fails it and is dropped without telling the submitter.
 */
module Submission {
  import opened Types
  import Guard

  /**
   The new-question view. newQuestionUrl is the canonical address the saved
   question gets; the form's validation is the form's own valid flag.
   */
  function Ask(s: Settings, req: Request, store: Store, form: Form, newQuestionUrl: string): (r: Reply)
    ensures Guard.MustLogIn(s, req) ==> r == Guard.Deny(s, req, store)
    ensures !Guard.MustLogIn(s, req) ==>
              var submitted := req.httpMethod == "POST" && form.valid;
              var kept := submitted && PassesHoneypot(req.viewer, form);
              // a kept question is appended to the saved rows and nothing else changes
              && (kept ==> r.store == store.(saved := store.saved + [QuestionSubmission(newQuestionUrl)])
                           && r.outcome == Redirect(newQuestionUrl))
              // a dropped question leaves no trace, and the submitter lands on the index
              && (submitted && !kept ==> r.store == store && r.outcome == Redirect(s.indexUrl))
              // anything else renders the form: with its errors after a POST, blank otherwise
              && (!submitted ==> r.store == store && r.outcome.Render? && r.outcome.page.AskPage?)
              && (!submitted && req.httpMethod == "POST" ==> r.outcome.page.form == WithErrors)
              && (req.httpMethod != "POST" ==> r.outcome.page.form == Blank)
  {
    if Guard.MustLogIn(s, req) then Guard.Deny(s, req, store)
    else if req.httpMethod == "POST" then
      if form.valid then
        if PassesHoneypot(req.viewer, form) then
          Reply(Redirect(newQuestionUrl), store.(saved := store.saved + [QuestionSubmission(newQuestionUrl)]))
        else
          Reply(Redirect(s.indexUrl), store)
      else
        Reply(Render(AskPage(WithErrors)), store)
    else
      Reply(Render(AskPage(Blank)), store)
  }

  /** The number of saved rows grows by one exactly when a valid submission persists. */
  lemma AskSavesAtMostOne(s: Settings, req: Request, store: Store, form: Form, newQuestionUrl: string)
    ensures var r := Ask(s, req, store, form, newQuestionUrl);
            |r.store.saved| == |store.saved| + 1 <==>
              && !Guard.MustLogIn(s, req)
              && req.httpMethod == "POST"
              && form.valid
              && PassesHoneypot(req.viewer, form)
    ensures var r := Ask(s, req, store, form, newQuestionUrl);
            |r.store.saved| == |store.saved| || |r.store.saved| == |store.saved| + 1
  {
  }

  /**
   The honeypot rule on the ask form. Past the prologue, a valid POST is saved
   exactly when the submitter is logged in or left the phone-number field
   empty; it then lands on the new question, and otherwise on the index with
   nothing changed.
   */
  lemma AskHoneypot(s: Settings, req: Request, store: Store, form: Form, newQuestionUrl: string)
    requires !Guard.MustLogIn(s, req) && req.httpMethod == "POST" && form.valid
    ensures var r := Ask(s, req, store, form, newQuestionUrl);
            var kept := req.viewer.authenticated || form.phoneNumber == "";
            && (r.store.saved == store.saved + [QuestionSubmission(newQuestionUrl)] <==> kept)
            && (!kept ==> r.store == store)
            && r.outcome == Redirect(if kept then newQuestionUrl else s.indexUrl)
  {
  }
}

=== FILE: thread.dfy ===
/**
 The thread view, /thread/<question_id>/[<slug>/]: look the question up among
 those the viewer may see, count the view, insist on the canonical address,
 and on POST take a response through the honeypot rule.
 */
module Thread {
  import opened Types
  import Guard

  /** The state after one more view of a question the store holds. */
  function CountView(store: Store, q: QuestionId): (after: Store)
    requires q in store.questions
    ensures after.questions.Keys == store.questions.Keys
    ensures after.questions[q].hits == store.questions[q].hits + 1
    ensures after.questions[q].url == store.questions[q].url
    ensures forall p :: p in store.questions && p != q ==> after.questions[p] == store.questions[p]
    ensures after.responses == store.responses && after.categories == store.categories
    ensures after.saved == store.saved
  {
    var row := store.questions[q];
    store.(questions := store.questions[q := row.(hits := row.hits + 1)])
  }

  /** Whether the view saves the posted response. */
  predicate SavesResponse(s: Settings, req: Request, store: Store, q: QuestionId, form: Form)
  {
    && !Guard.MustLogIn(s, req)
    && Visible(store, req.viewer, QuestionKind, q)
    && req.path == store.questions[q].url
    && req.httpMethod == "POST"
    && form.valid
    && PassesHoneypot(req.viewer, form)
  }

  /** The thread view for question q, with the posted form (ignored unless the method is POST). */
  function ThreadView(s: Settings, req: Request, store: Store, q: QuestionId, form: Form): (r: Reply)
    ensures Guard.MustLogIn(s, req) ==> r == Guard.Deny(s, req, store)
    // a question the viewer cannot see: a redirect when it exists and one is configured, else not found
    ensures !Guard.MustLogIn(s, req) && !Visible(store, req.viewer, QuestionKind, q) ==>
              && r.store == store
              && (q in store.questions && s.loginRedirectUrl.Some? ==> r.outcome == Redirect(s.loginRedirectUrl.value))
              && (q !in store.questions || s.loginRedirectUrl.None? ==> r.outcome == NotFound)
    // a question the viewer can see: exactly one more hit, other questions untouched
    ensures !Guard.MustLogIn(s, req) && Visible(store, req.viewer, QuestionKind, q) ==>
              && r.store.questions == CountView(store, q).questions
              && r.store.responses == store.responses
              && r.store.categories == store.categories
    // the wrong address is redirected permanently to the canonical one, and nothing is submitted
    ensures !Guard.MustLogIn(s, req) && Visible(store, req.viewer, QuestionKind, q)
            && req.path != store.questions[q].url ==>
              r.outcome == PermanentRedirect(store.questions[q].url) && r.store.saved == store.saved
    // a valid POST at the canonical address lands back on the thread, saved or not
    ensures !Guard.MustLogIn(s, req) && Visible(store, req.viewer, QuestionKind, q)
            && req.path == store.questions[q].url && req.httpMethod == "POST" && form.valid ==>
              r.outcome == Redirect(store.questions[q].url)
    // the response is saved, once, exactly when the honeypot rule lets it through
    ensures SavesResponse(s, req, store, q, form) ==> r.store.saved == store.saved + [ResponseSubmission(q)]
    ensures !SavesResponse(s, req, store, q, form) ==> r.store.saved == store.saved
    // at the canonical address, anything but a valid POST renders the thread
    ensures !Guard.MustLogIn(s, req) && Visible(store, req.viewer, QuestionKind, q)
            && req.path == store.questions[q].url && !(req.httpMethod == "POST" && form.valid) ==>
              r.outcome == Render(ThreadPage(q, if req.httpMethod == "POST" then WithErrors else Blank))
    // the page is rendered only at the canonical address, for a GET or an invalid POST
    ensures r.outcome.Render? ==>
              && Visible(store, req.viewer, QuestionKind, q)
              && req.path == store.questions[q].url
              && r.outcome.page == ThreadPage(q, if req.httpMethod == "POST" then WithErrors else Blank)
              && (req.httpMethod == "POST" ==> !form.valid)
  {
    if Guard.MustLogIn(s, req) then Guard.Deny(s, req, store)
    else if !Visible(store, req.viewer, QuestionKind, q) then
      if q in store.questions && s.loginRedirectUrl.Some? then
        Reply(Redirect(s.loginRedirectUrl.value), store)
      else
        Reply(NotFound, store)
    else
      var url := store.questions[q].url;
      var viewed := CountView(store, q);
      if req.path != url then
        Reply(PermanentRedirect(url), viewed)
      else if req.httpMethod == "POST" then
        if form.valid then
          if PassesHoneypot(req.viewer, form) then
            Reply(Redirect(url), viewed.(saved := viewed.saved + [ResponseSubmission(q)]))
          else
            Reply(Redirect(url), viewed)
        else
          Reply(Render(ThreadPage(q, WithErrors)), viewed)
      else
        Reply(Render(ThreadPage(q, Blank)), viewed)
  }

  /** The hit count a view leaves does not depend on who is viewing, only on whether they may. */
  lemma HitsIndependentOfViewer(s: Settings, a: Request, b: Request, store: Store, q: QuestionId,
                                formA: Form, formB: Form)
    requires !Guard.MustLogIn(s, a) && !Guard.MustLogIn(s, b)
    requires Visible(store, a.viewer, QuestionKind, q) && Visible(store, b.viewer, QuestionKind, q)
    ensures ThreadView(s, a, store, q, formA).store.questions == ThreadView(s, b, store, q, formB).store.questions
  {
  }

  /**
   The honeypot rule on the response form. For a visible question at its
   canonical address, a valid POST saves the response exactly when the
   submitter is logged in or left the phone-number field empty, and lands
   on the thread either way.
   */
  lemma ResponseHoneypot(s: Settings, req: Request, store: Store, q: QuestionId, form: Form)
    requires !Guard.MustLogIn(s, req) && Visible(store, req.viewer, QuestionKind, q)
    requires req.path == store.questions[q].url && req.httpMethod == "POST" && form.valid
    ensures var r := ThreadView(s, req, store, q, form);
            var kept := req.viewer.authenticated || form.phoneNumber == "";
            && (r.store.saved == store.saved + [ResponseSubmission(q)] <==> kept)
            && (!kept ==> r.store.saved == store.saved)
            && r.outcome == Redirect(store.questions[q].url)
  {
  }
}

=== FILE: types.dfy ===
/**
 The shared vocabulary of the knowledge-base views: configuration, the
 requesting user as the views see them, the persistent state the views read
 and write, and what a view answers with.

 The ORM, the visibility query, the permission backend and URL reversing are
 not modelled; they appear here as data the views consult (oracles).
 */
module Types {

  datatype Option<+T> = None | Some(value: T)

  type QuestionId = nat
  type ResponseId = nat

  /** The configuration the views read from the application's settings module. */
  datatype Settings = Settings(
    loginRequired: bool,
    loginUrl: string,
    // None when the settings module has no LOGIN_REDIRECT_URL attribute
    loginRedirectUrl: Option<string>,
    // what the URL named 'knowledge_index' resolves to
    indexUrl: string)

  /** The two models a moderation request may name. */
  datatype Kind = QuestionKind | ResponseKind

  /** The requesting user, seen through the three questions the views ask about it. */
  datatype Viewer = Viewer(
    authenticated: bool,
    // the permission names for which has_perm answers yes
    perms: set<string>,
    // membership in Model.objects.can_view(user), for the current state
    canView: (Kind, nat) -> bool)

  datatype Request = Request(
    viewer: Viewer,
    httpMethod: string,
    path: string,
    // the 'page' query parameter, None when absent
    page: Option<string>)

  /** A stored question: its hit counter and its canonical address (get_absolute_url). */
  datatype QuestionRow = QuestionRow(hits: nat, url: string)

  /** A stored response: the question it answers. */
  datatype ResponseRow = ResponseRow(question: QuestionId)

  /** A row created by a submission form's save(). */
  datatype Submission =
    | ResponseSubmission(question: QuestionId)
    | QuestionSubmission(url: string)

  datatype Store = Store(
    questions: map<QuestionId, QuestionRow>,
    responses: map<ResponseId, ResponseRow>,
    // the slugs of the existing categories
    categories: set<string>,
    // every submission persisted so far, in order
    saved: seq<Submission>)

  /** A submitted form: whether it validates, and its honeypot field. */
  datatype Form = Form(valid: bool, phoneNumber: string)

  /**
   The anti-spam rule the response form and the new-question form share: a
   valid submission is kept only when the submitter is logged in or left the
   hidden phone-number field empty.
   */
  predicate PassesHoneypot(viewer: Viewer, form: Form)
  {
    viewer.authenticated || form.phoneNumber == ""
  }

  datatype FormState = Blank | WithErrors

  /** The template a view renders, with the decisions that shaped it. */
  datatype Page =
    // questions: the whole listing; articles: the questions on the served page
    | IndexPage(questions: seq<QuestionId>, articles: seq<QuestionId>, page: nat, numPages: nat)
    | ListPage(questions: seq<QuestionId>, articles: seq<QuestionId>, page: nat, numPages: nat)
    | ThreadPage(question: QuestionId, form: FormState)
    | AskPage(form: FormState)

  datatype Outcome =
    | LoginRedirect(url: string)      // the login prologue's HttpResponseRedirect
    | NotFound                        // Http404
    | Redirect(url: string)           // redirect(...)
    | PermanentRedirect(url: string)  // redirect(..., permanent=True)
    | Render(page: Page)

  /** What a view answers with, and the state it leaves behind. */
  datatype Reply = Reply(outcome: Outcome, store: Store)

  /** Whether an entity of the given kind exists and the viewer may see it. */
  predicate Visible(store: Store, viewer: Viewer, kind: Kind, id: nat)
  {
    match kind
    case QuestionKind => id in store.questions && viewer.canView(kind, id)
    case ResponseKind => id in store.responses && viewer.canView(kind, id)
  }
}

=== FILE: views.dfy ===
/**
 The five views behind one dispatcher, so that what holds of every view can
 be stated once.
 */
module Views {
  import opened Types
  import Guard
  import Listing
  import Thread
  import Moderation
  import Submission

  /** A routed request: which view, with the values its URL and body carry. */
  datatype Route =
    | IndexRoute(order: seq<QuestionId>)
    | ListRoute(categorySlug: Option<string>, matches: QuestionId -> bool, order: seq<QuestionId>)
    | ThreadRoute(question: QuestionId, form: Form)
    | ModerateRoute(model: string, lookupId: nat, mod: string,
                    transition: (Store, Kind, nat, Moderation.Mod) -> Store)
    | AskRoute(form: Form, newQuestionUrl: string)

  function Dispatch(s: Settings, req: Request, store: Store, route: Route): Reply
  {
    match route
    case IndexRoute(order) => Listing.Index(s, req, store, order)
    case ListRoute(slug, matches, order) => Listing.List(s, req, store, slug, matches, order)
    case ThreadRoute(q, form) => Thread.ThreadView(s, req, store, q, form)
    case ModerateRoute(model, id, mod, transition) =>
      Moderation.Moderate(s, req, store, model, id, mod, transition)
    case AskRoute(form, url) => Submission.Ask(s, req, store, form, url)
  }

  /**
   Every view, when login is required and the caller is anonymous, answers
   with the login redirect carrying the requested path, and changes nothing.
   */
  lemma LoginGuardFirst(s: Settings, req: Request, store: Store, route: Route)
    requires Guard.MustLogIn(s, req)
    ensures Dispatch(s, req, store, route).outcome == LoginRedirect(s.loginUrl + "?next=" + req.path)
    ensures Dispatch(s, req, store, route).store == store
  {
  }

  /** The index and list views only read: they never change the state. */
  lemma ListingsReadOnly(s: Settings, req: Request, store: Store, route: Route)
    requires route.IndexRoute? || route.ListRoute?
    ensures Dispatch(s, req, store, route).store == store
  {
  }
}
